=== FILE: README.md ===
# Videy playback page, modelled in Dafny

This project models the logic of the playback/browse page of a small React
site that streams videos from a remote JSON index (`src/pages/PlayVideo.tsx`),
together with the search form of its layout (`src/layout/Layout.tsx`). The
page does the following:

- takes a video id from the route (`/play/:id` and friends) or from `?v=`;
- fetches the index and shuffles it into the browse list;
- looks the id up in the fetched array;
- downloads the media into an object URL (`blob:`), falling back to the remote `Url`;
- drives a fluid-player instance over that source;
- opens an ad tab on `play`, `pause` and `seeked`, at most once per 30 s.

Under the player it shows the browse list: filtered by the `search` query,
twelve entries per page, with a Previous/Next pager.

Modules, one per piece of the page:

| module | file | what it covers |
|---|---|---|
| `Base` | `base.dfy` | `Option` |
| `Text` | `text.dfy` | JavaScript `trim`, `toLowerCase`, `includes`, `startsWith` |
| `Catalog` | `catalog.dfy` | `VideoData`, id selection, `find`, the shuffle |
| `AdCooldown` | `ad_cooldown.dfy` | `adRedirect` and its `lastAdTime` cooldown |
| `Browse` | `browse.dfy` | filter effect, page reset, `currentItems`, `totalPages`, pager |
| `FetchSession` | `fetch_session.dfy` | the data-fetch effect as a state machine over runs, with the `isMounted` guard, fallback and revoke |
| `Player` | `player.dfy` | the player effect: timer, `initPlayer`, guarded `destroy`, subscriptions |
| `SearchRoute` | `search_route.dfy` | `handleSearch` |
| `HandOff` | `hand_off.dfy` | `handleDownload` and what the download page reads back |

Time, randomness and network results are parameters:

- `now` is the clock reading.
- `choice` is the random index into the three ad URLs.
- `picks` are the random draws of the shuffle.
- `IndexResult` and `MediaResult` are the outcomes of the two fetches.

Object URLs are tracked as the set of handles created and not yet revoked.
The player library is an opaque instance that either is live or has been
destroyed.

Behaviours of the code that the model keeps, each with a lemma:

- The cooldown comparison is strict (`>`): `AdCooldown.BoundaryIsExclusive`.
- The lookup searches the fetched array, not the shuffled one. The two agree
  when ids are unique (`Catalog.FindIgnoresOrderWhenIdsUnique`) and can
  differ otherwise (`Catalog.FirstMatchDependsOnOrder`).
- The browse list is reshuffled on every id change: each run stores the
  shuffle of its own index response (`FetchSession.ReshuffledOnEveryIdChange`),
  and the draws decide the order: two entries can come out either way
  (`Catalog.DrawsDecideOrder`).
- Stale responses are dropped by a per-run `isMounted` flag that the
  cleanup clears: `FetchSession.StaleResponsesNeverCommit`.
- `videoData` is never cleared when the id changes. An unknown new id
  therefore keeps showing the previous video instead of "Content
  Unavailable": `FetchSession.PreviousVideoSurvivesUnknownId`.
- The cleanup revokes the `blobUrl` captured when its run started. So the
  object URL of the last id stays live after unmount
  (`FetchSession.LastObjectUrlOutlivesUnmount`). A media response that
  arrives after cleanup still creates a handle that nothing revokes
  (`FetchSession.LateMediaLeaksHandle`).
- The held player reference is never cleared. The next `initPlayer`
  therefore destroys an already-destroyed player, and the error is
  swallowed: `Player.SecondDestroyIsSwallowed`.

## Model

| member | source | states |
|---|---|---|
| Text.TrimOfPadded | src/layout/Layout.tsx:13 | `trim` returns exactly the tight core of any input made of whitespace, core, whitespace |
| Text.TrimIgnoresPadding | src/layout/Layout.tsx:13 | adding whitespace on either side of a string does not change its `trim` |
| Text.TrimIdempotent | src/layout/Layout.tsx:13 | trimming a trimmed string changes nothing |
| Text.TrimEmptyIffBlank | src/layout/Layout.tsx:13-14 | the trimmed term is empty exactly when the input is all whitespace |
| Text.Trim | src/layout/Layout.tsx:13 | the trimmed string has no whitespace at either end and is no longer than the input |
| Text.StartsWith | src/pages/PlayVideo.tsx:138 | `startsWith` holds iff the prefix fits and agrees with the string at every position |
| Text.Lower | src/pages/PlayVideo.tsx:146 | `toLowerCase` keeps the length and maps each character to its lower-case form (ASCII letters) |
| Text.Includes | src/pages/PlayVideo.tsx:146 | `includes` is true exactly when the needle occurs at some position of the haystack |
| AdCooldown.Trigger | src/pages/PlayVideo.tsx:77-92 | redirects iff no `lastAdTime` is stored or `now - last > 30000`; a redirect opens one of the three fixed URLs and stores `now`; otherwise storage is unchanged |
| AdCooldown.QuietWhileCooling | src/pages/PlayVideo.tsx:84-91 | while every call is within 30000 ms of the stored time, a run of calls opens nothing and leaves storage unchanged |
| AdCooldown.AtMostOncePerWindow | src/pages/PlayVideo.tsx:83-91 | calls that all lie within one 30000 ms window redirect at most once |
| AdCooldown.RedirectsAreSpaced | src/pages/PlayVideo.tsx:83-91 | successive redirects of any run are more than 30000 ms apart, and the first is more than 30000 ms after the stored time; storage ends holding the time of the last redirect |
| AdCooldown.FiresAgainAfterWindow | src/pages/PlayVideo.tsx:84-90 | in a fresh session, a first call and a call more than 30000 ms later both redirect |
| AdCooldown.BoundaryIsExclusive | src/pages/PlayVideo.tsx:85-87 | a call exactly 30000 ms after the last redirect does not redirect; one 30001 ms after does |
| Catalog.SelectId | src/pages/PlayVideo.tsx:60-64 | the path parameter wins when non-empty, otherwise the `v` query parameter; an id is present iff one of them is non-empty |
| Catalog.SearchQuery | src/pages/PlayVideo.tsx:62 | the query is the `search` parameter when non-empty, otherwise the empty string |
| Catalog.FindFrom | src/pages/PlayVideo.tsx:109 | returns the least index at or after the start whose entry has the id, or none when no such entry exists |
| Catalog.Find | src/pages/PlayVideo.tsx:109 | returns the first entry, in array order, carrying the id; returns nothing iff no entry carries it |
| Catalog.Shuffle | src/pages/PlayVideo.tsx:105 | the shuffled list is a permutation of the fetched array (same multiset) |
| Catalog.DrawsDecideOrder | src/pages/PlayVideo.tsx:105 | two entries come out in either order depending on the draws |
| Catalog.FindIgnoresOrderWhenIdsUnique | src/pages/PlayVideo.tsx:105-109 | with unique ids, looking up in any permutation of the array gives the same entry |
| Catalog.FirstMatchDependsOnOrder | src/pages/PlayVideo.tsx:105-109 | with a duplicated id, the two orders of the same entries resolve to different entries |
| Browse.Select | src/pages/PlayVideo.tsx:146 | every entry keeps its multiplicity when its lower-cased title contains the lower-cased query and is dropped otherwise |
| Browse.SelectAppend | src/pages/PlayVideo.tsx:146 | filtering distributes over concatenation, so the relative order of kept entries is preserved |
| Browse.Refilter | src/pages/PlayVideo.tsx:144-152 | after every recomputation the page is 1; an empty query shows the loaded list unchanged, any other query shows exactly the matching entries in their loaded order, each with its multiplicity |
| Browse.BrowseListFromIndex | src/pages/PlayVideo.tsx:144-152 | the list shown after a load holds exactly the fetched entries (empty query) or exactly the matching ones with their multiplicities, on page 1 |
| Browse.SliceBound | src/pages/PlayVideo.tsx:231 | a `slice` bound is clamped into `[0, length]`, non-negative bounds are kept when in range |
| Browse.Slice | src/pages/PlayVideo.tsx:231 | with `0 <= start <= end`, `slice` returns the elements from `start` up to `end`, both cut at the end of the list; with `0 <= end <= start` it returns nothing |
| Browse.CurrentItems | src/pages/PlayVideo.tsx:231 | every page has at most 12 entries; page `p >= 1` is the stretch `[(p-1)*12, p*12)` of the list, cut at its end |
| Browse.TotalPages | src/pages/PlayVideo.tsx:232 | the page count `t` is `ceil(n/12)`: `12(t-1) < n <= 12t`, which makes it 0 for an empty list |
| Browse.PageBeyondRangeIsEmpty | src/pages/PlayVideo.tsx:231-232 | a page past the page count is empty |
| Browse.PagesInRangeAreFilled | src/pages/PlayVideo.tsx:231-232 | every page from 1 to the count is non-empty, and the last holds `n mod 12` entries, or 12 when that is 0 |
| Browse.PagesUpToIsPrefix | src/pages/PlayVideo.tsx:231 | pages 1 to `k` concatenated are the first `min(12k, n)` entries |
| Browse.PagesPartitionList | src/pages/PlayVideo.tsx:231-232 | pages 1 to the page count, concatenated, are exactly the shown list |
| Browse.Click | src/pages/PlayVideo.tsx:358-376 | a pager click keeps the list; with one page or none nothing happens; otherwise Previous goes to page - 1 except on page 1, and Next to page + 1 except on the last page |
| Browse.PagerFor | src/pages/PlayVideo.tsx:358-376 | the pager shows iff there is more than one page; Previous is disabled exactly on page 1, Next exactly on the last page |
| Browse.Matches | src/pages/PlayVideo.tsx:146 | an entry matches iff the lower-cased query occurs somewhere in its lower-cased title |
| Browse.ClickKeepsPageInRange | src/pages/PlayVideo.tsx:358-376 | from a page in range, clicking Previous or Next (disabled at page 1 and at the last page, hidden with one page) keeps the page in range and non-empty |
| Browse.CatDogExample | src/pages/PlayVideo.tsx:144-152 | with entries "Cat" and "Dog", id `b` resolves to "Dog", query `cat` shows only "Cat", query `zzz` shows nothing and has 0 pages |
| FetchSession.ObjectUrl | src/pages/PlayVideo.tsx:118 | an object URL starts with `blob:` |
| FetchSession.Cleanup | src/pages/PlayVideo.tsx:135-141 | the cleanup unmounts the current run, hides the layout's search box, and revokes its captured `blobUrl` iff it starts with `blob:`; run ids, phases and captures and the component state are untouched |
| FetchSession.Start | src/pages/PlayVideo.tsx:94-142 | an id change first runs the previous cleanup: the previous run is unmounted, its captured `blobUrl` is revoked iff it starts with `blob:`, the search box is hidden, and earlier runs otherwise keep their id, phase and capture; then a new run starts mounted with the current `blobUrl` captured, and only the loading flag of the state changes |
| FetchSession.Settle | src/pages/PlayVideo.tsx:128-130 | the run ends; the loading flag clears only if the run is mounted |
| FetchSession.IndexArrives | src/pages/PlayVideo.tsx:101-130 | only run k's phase changes among the runs; an unmounted run commits nothing; a mounted one stores its own shuffle of the fetched array (a permutation of it), keeps the source, and either stores the first entry of the fetched order with the id and awaits its media, or keeps the previous entry and the search-box flag and stops loading |
| FetchSession.MediaArrives | src/pages/PlayVideo.tsx:114-130 | only run k's phase changes among the runs; an ok response always creates a `blob:` handle; a mounted run plays exactly that new handle, or exactly the entry's `Url` on failure with no handle created, and keeps the entry and the browse list; an unmounted run commits nothing |
| FetchSession.StepKeepsValid | src/pages/PlayVideo.tsx:94-142 | after any event, only the current run can still be mounted |
| FetchSession.StaleResponsesNeverCommit | src/pages/PlayVideo.tsx:104-129 | a response for a superseded or cleaned-up run leaves the component state unchanged |
| FetchSession.Render | src/pages/PlayVideo.tsx:234-246 | the spinner shows iff loading; "Content Unavailable" shows iff loading is over, an id is requested and no entry is stored; otherwise the content is the stored entry played from the stored source |
| FetchSession.InitialIsValid | src/pages/PlayVideo.tsx:94-97 | before the first run no run is mounted, so the page starts valid |
| FetchSession.IdChangeRevokesPreviousObjectUrl | src/pages/PlayVideo.tsx:135-142 | after a video plays from an object URL, the next id change captures it and the id change after that revokes it |
| FetchSession.UnknownIdIsUnavailable | src/pages/PlayVideo.tsx:108-129 | opening an id absent from the index, or with the index failing, ends on "Content Unavailable" |
| FetchSession.KnownIdPlays | src/pages/PlayVideo.tsx:108-122 | opening a known id plays its first entry from the object URL, or from its `Url` with no handle created when the media fetch fails |
| FetchSession.FallbackIsNeverRevoked | src/pages/PlayVideo.tsx:138-140 | a captured source that does not start with `blob:` is never revoked |
| FetchSession.LastObjectUrlOutlivesUnmount | src/pages/PlayVideo.tsx:135-142 | whenever the current run plays a new object URL (one it did not capture at its start), that URL is still live after the cleanup |
| FetchSession.LateMediaLeaksHandle | src/pages/PlayVideo.tsx:115-119 | a media response after cleanup commits nothing yet leaves a live handle |
| FetchSession.ReshuffledOnEveryIdChange | src/pages/PlayVideo.tsx:104-106 | every run started by an id change stores the shuffle of its own index response, whatever list was shown before |
| FetchSession.PreviousVideoSurvivesUnknownId | src/pages/PlayVideo.tsx:108-112 | switching to an unknown id keeps the previous entry on screen rather than "Content Unavailable" |
| Player.TryDestroy | src/pages/PlayVideo.tsx:158-162 | destroying the held player releases it when live and otherwise throws, and the throw is swallowed; the held reference is kept |
| Player.Cleanup | src/pages/PlayVideo.tsx:191-198 | the cleanup clears the pending timer and leaves no player live |
| Player.Rerun | src/pages/PlayVideo.tsx:154-199 | after a source change the previous cleanup has destroyed the held player, so in a valid lifecycle none is live, and a timer is pending iff the source is non-empty and the mount node exists |
| Player.Fire | src/pages/PlayVideo.tsx:157-189 | a cleared timer does nothing; otherwise the timer ends and, with the library loaded, a new player with `adRedirect` on `play`, `pause`, `seeked` becomes the held one |
| Player.Unmount | src/pages/PlayVideo.tsx:191-198 | after unmount nothing is armed or pending, and in a valid lifecycle no player is live |
| Player.StepKeepsValid | src/pages/PlayVideo.tsx:154-199 | after any event, every live player is the held one, and a timer is pending or a player live only while the last run is armed |
| Player.UnmountedIsValid | src/pages/PlayVideo.tsx:154-199 | the page mounts with nothing held, armed, pending or live, which is valid |
| Player.AtMostOneLive | src/pages/PlayVideo.tsx:157-198 | at most one player instance is ever live |
| Player.InitReplacesInstance | src/pages/PlayVideo.tsx:157-186 | `initPlayer` leaves exactly the newly built player live, subscribed to exactly `play`, `pause` and `seeked` |
| Player.NoInitWithoutSourceOrMount | src/pages/PlayVideo.tsx:155 | without a source or a mount node no timer is scheduled, so no player is built |
| Player.NoConstructionAfterUnmount | src/pages/PlayVideo.tsx:191-192 | after unmount the timer builds nothing, and no player is live |
| Player.SecondDestroyIsSwallowed | src/pages/PlayVideo.tsx:158-162 | after a source change, `initPlayer` destroys the already-destroyed held player, the throw is swallowed and the new player is still built |
| Player.Dispatch | src/pages/PlayVideo.tsx:182-185 | only `play`, `pause` or `seeked` on the live held player reach `adRedirect`, and they always do |
| SearchRoute.Target | src/layout/Layout.tsx:11-19 | the target is `/` iff the input is all whitespace; otherwise it is the search route followed by a non-empty term with no whitespace at either end |
| SearchRoute.TargetIgnoresPadding | src/layout/Layout.tsx:13 | whitespace added around the input does not change the target |
| SearchRoute.TargetEmbedsTrimmedTerm | src/layout/Layout.tsx:13-15 | the embedded term is the trimmed input verbatim, the input being that term wrapped in whitespace |
| SearchRoute.TermIsNotEncoded | src/layout/Layout.tsx:15 | ` a&b ` navigates to `/search?search=a&b`: the term is not URL-encoded |
| HandOff.Download | src/pages/PlayVideo.tsx:213-220 | without an entry nothing happens; with one, its `Url` and `Judul` are stored, `/download` opens, and an ad tab opens iff the cooldown allows, in which case `lastAdTime` becomes `now`; otherwise the cooldown is unchanged |
| HandOff.Received | src/pages/Download.tsx:17-32 | the download page always has a non-empty file name |
| HandOff.HandOffRoundTrip | src/pages/PlayVideo.tsx:215-216 | the download page receives the shown entry's `Url`, named by its `Judul`, or `video` when that is empty |

## Left out

- Network I/O: the index fetch, the media fetch, `res.json()` and `vidRes.blob()`. Their outcomes are event inputs (`IndexResult`, `MediaResult`). A malformed JSON array counts as `IndexFailed`. Entries with missing fields are not modelled.
- `Math.random`: the ad pick is an index below 3. The shuffle is a draw-driven permutation.
- Catalog.Shuffle: stands for the source's sort with a random comparator. Every permutation is reachable in the model, which over-approximates the orders that sort can produce.
- `Date.now`: a parameter.
- `sessionStorage` strings and `parseInt`: `lastAdTime` is held as an optional integer. A stored value that is not a number is not modelled (with it, `parseInt` gives `NaN` and the ad never fires).
- `URL.createObjectURL` / `revokeObjectURL`: a set of live handle strings. The token after `blob:` is an input, and its freshness is not modelled.
- The fluid-player library: an opaque instance, live or destroyed. Its options object, rendering and event emission are not modelled. Destroying a destroyed instance is taken to throw.
- `setTimeout` / `clearTimeout`: a pending flag. The 100 ms delay itself is not modelled.
- React scheduling: renders, batching and the order of effects within one commit. Each effect is modelled separately, with events applied one at a time.
- `window.open`, `window.scrollTo`, `handleCopy` (clipboard and `innerHTML`), `handleCardClick` and `console.error`: side effects with no state of the page behind them. `window.open` shows up only as the returned URL or tab list.
- `setShowSearch` acts on a layout context whose provider is not part of this model. The flag is tracked, starting from `false`.
- JSX rendering: the model keeps only which screen is shown (spinner, "Content Unavailable" or content) and the pager's enabled/disabled state.
- Strings are sequences of Unicode scalar values, not of UTF-16 code units: a character outside the Basic Multilingual Plane is one element here but two code units in JavaScript, and a lone surrogate cannot be represented. Lengths and positions in `includes`, `startsWith` and `trim` agree with the source only for text in the Basic Multilingual Plane.
- Text.Lower: lower-cases ASCII letters only, whereas `toLowerCase` maps every Unicode letter. The filter therefore differs from the source for non-ASCII text: it can drop entries the source keeps and keep entries the source drops.
- `src/pages/Home.tsx` (a static page with a random display id), `src/App.tsx` (provider composition) and `src/main.tsx` (the route table; route matching belongs to the router library). The download page's anchor-click download and timed redirect are also left out. Only what it reads back from storage is modelled.
- Parsing `search` and `v` out of a URL: the search target is built verbatim, and reading it back through `URLSearchParams` is router behaviour outside this model.

=== FILE: ad_cooldown.dfy ===
/** The ad-redirect cooldown policy (`adRedirect` of the playback page).
    Session storage is reduced to its `lastAdTime` entry, read back as an
    integer; the clock reading and the random pick are parameters. */
module AdCooldown {

  import opened Base

  /** The fixed redirect destinations, in the order the source lists them. */
  const AdUrls: seq<string> := [
    "https://otieu.com/4/10209209",
    "https://plumprush.com/cY2po8",
    "https://viiukuhe.com/dc/?blockID=406304"
  ]

  /** Milliseconds that must strictly elapse between two redirects. */
  const CooldownMs: int := 30000

  /** The `lastAdTime` entry of session storage: absent, or the epoch
      milliseconds of the last redirect. */
  datatype Cooldown = Cooldown(lastAdTime: Option<int>)

  const Fresh: Cooldown := Cooldown(None)

  /** The storage after a call, and the URL redirect in a new tab, if any. */
  datatype Outcome = Outcome(storage: Cooldown, redirect: Option<string>)

  /** The storage after a run of calls, and the times at which a redirect
      happened, in call order. */
  datatype RunOutcome = RunOutcome(storage: Cooldown, fired: seq<int>)

  /** Whether a call at time `now` is outside the cooldown window. */
  predicate Ready(c: Cooldown, now: int) {
    c.lastAdTime.None? || now - c.lastAdTime.value > CooldownMs
  }

  /** One call of `adRedirect` at time `now`; `choice` is the index the random
      draw produced. Returns the new storage and the URL redirect, if any. */
  function Trigger(c: Cooldown, now: int, choice: nat): (r: Outcome)
    requires choice < |AdUrls|
    ensures r.redirect.Some? <==> (c.lastAdTime.None? || now - c.lastAdTime.value > CooldownMs)
    ensures r.redirect.Some? ==> r.redirect.value in AdUrls && r.storage.lastAdTime == Some(now)
    ensures r.redirect.None? ==> r.storage == c
  {
    if Ready(c, now) then Outcome(Cooldown(Some(now)), Some(AdUrls[choice])) else Outcome(c, None)
  }

  /** Whether every choice index is a valid draw. */
  predicate ValidChoices(choices: seq<nat>) {
    forall i :: 0 <= i < |choices| ==> choices[i] < |AdUrls|
  }

  /** A run of calls at the given times. */
  function Run(c: Cooldown, times: seq<int>, choices: seq<nat>): RunOutcome
    requires |choices| == |times| && ValidChoices(choices)
    decreases |times|
  {
    if times == [] then RunOutcome(c, [])
    else
      var first := Trigger(c, times[0], choices[0]);
      var rest := Run(first.storage, times[1..], choices[1..]);
      RunOutcome(rest.storage, if first.redirect.Some? then [times[0]] + rest.fired else rest.fired)
  }

  /** While the stored time is within the window of every later call, a run
      opens nothing and leaves storage unchanged. */
  lemma {:induction false} QuietWhileCooling(c: Cooldown, times: seq<int>, choices: seq<nat>)
    requires |choices| == |times| && ValidChoices(choices)
    requires c.lastAdTime.Some?
    requires forall i :: 0 <= i < |times| ==> times[i] - c.lastAdTime.value <= CooldownMs
    ensures Run(c, times, choices) == RunOutcome(c, [])
    decreases |times|
  {
    if times != [] {
      QuietWhileCooling(c, times[1..], choices[1..]);
    }
  }

  /** Calls that all fall within one cooldown window (no call is more than
      the window later than an earlier one) redirect at most once. */
  lemma {:induction false} AtMostOncePerWindow(c: Cooldown, times: seq<int>, choices: seq<nat>)
    requires |choices| == |times| && ValidChoices(choices)
    requires forall i, j :: 0 <= i < j < |times| ==> times[j] - times[i] <= CooldownMs
    ensures |Run(c, times, choices).fired| <= 1
    decreases |times|
  {
    if times != [] {
      var first := Trigger(c, times[0], choices[0]);
      if first.redirect.Some? {
        assert forall i :: 0 <= i < |times[1..]| ==> times[1..][i] - times[0] <= CooldownMs by {
          forall i | 0 <= i < |times[1..]| ensures times[1..][i] - times[0] <= CooldownMs {
            assert times[1..][i] == times[i + 1];
          }
        }
        QuietWhileCooling(first.storage, times[1..], choices[1..]);
      } else {
        AtMostOncePerWindow(first.storage, times[1..], choices[1..]);
      }
    }
  }

  /** Every redirect of a run happens strictly more than the window after
      the previous one, the stored time counting as the previous one. */
  lemma {:induction false} RedirectsAreSpaced(c: Cooldown, times: seq<int>, choices: seq<nat>)
    requires |choices| == |times| && ValidChoices(choices)
    ensures var fired := Run(c, times, choices).fired;
            && (forall k :: 0 < k < |fired| ==> fired[k] - fired[k - 1] > CooldownMs)
            && (c.lastAdTime.Some? && fired != [] ==> fired[0] - c.lastAdTime.value > CooldownMs)
    ensures var r := Run(c, times, choices);
            && (r.fired != [] ==> r.storage.lastAdTime == Some(r.fired[|r.fired| - 1]))
            && (r.fired == [] ==> r.storage == c)
    decreases |times|
  {
    if times != [] {
      RedirectsAreSpaced(Trigger(c, times[0], choices[0]).storage, times[1..], choices[1..]);
    }
  }

  /** The first call of a session redirects, and so does a call made after
      the window has fully elapsed. */
  lemma FiresAgainAfterWindow(t1: int, t2: int, i: nat, j: nat)
    requires i < |AdUrls| && j < |AdUrls|
    requires t2 - t1 > CooldownMs
    ensures Run(Fresh, [t1, t2], [i, j]).fired == [t1, t2]
  {
    assert [t1, t2][1..] == [t2] && [i, j][1..] == [j];
    assert [t2][1..] == [] && [j][1..] == [];
    assert Run(Cooldown(Some(t1)), [t2], [j]).fired == [t2];
  }

  /** The boundary is strict: a call exactly one window after the last
      redirect does not redirect. */
  lemma BoundaryIsExclusive(t: int, i: nat)
    requires i < |AdUrls|
    ensures Trigger(Cooldown(Some(t)), t + CooldownMs, i).redirect.None?
    ensures Trigger(Cooldown(Some(t)), t + CooldownMs + 1, i).redirect.Some?
  {
  }
}

=== FILE: base.dfy ===
/** Shared wrapper types. */
module Base {

  /** An optional value: the source's `null`/`undefined` against a present one. */
  datatype Option<T> = None | Some(value: T)
}

=== FILE: browse.dfy ===
/** The browse list under the player: the search filter over the shuffled
    index, the page reset, the twelve-per-page slicing and the pager. */
module Browse {

  import opened Text
  import opened Catalog
  import Base

  /** `itemsPerPage`. */
  const ItemsPerPage: nat := 12

  /** The title contains the query, both lower-cased. */
  predicate Matches(v: VideoData, query: string): (b: bool)
    ensures b <==> exists i: nat :: OccursAt(Lower(v.judul), Lower(query), i)
  {
    Includes(Lower(v.judul), Lower(query))
  }

  /** `allVideos.filter(...)`: the entries whose title matches, in order. */
  function Select(all: seq<VideoData>, query: string): (r: seq<VideoData>)
    ensures forall v :: multiset(r)[v] == if Matches(v, query) then multiset(all)[v] else 0
    decreases |all|
  {
    if all == [] then []
    else
      assert all == [all[0]] + all[1..];
      (if Matches(all[0], query) then [all[0]] else []) + Select(all[1..], query)
  }

  /** Filtering keeps the relative order: it distributes over concatenation. */
  lemma {:induction false} SelectAppend(a: seq<VideoData>, b: seq<VideoData>, query: string)
    ensures Select(a + b, query) == Select(a, query) + Select(b, query)
    decreases |a|
  {
    if a == [] {
      assert a + b == b;
    } else {
      assert (a + b)[0] == a[0];
      assert (a + b)[1..] == a[1..] + b;
      SelectAppend(a[1..], b, query);
    }
  }

  /** What the filter effect leaves behind: the list and the current page. */
  datatype Listing = Listing(displayed: seq<VideoData>, page: int)

  /** The filter effect, run whenever the query or the loaded list changes:
      it always sends the view back to the first page. */
  function Refilter(all: seq<VideoData>, query: string): (l: Listing)
    ensures l.page == 1
    ensures multiset(l.displayed) <= multiset(all)
    ensures query == "" ==> l.displayed == all
    ensures query != "" ==> l.displayed == Select(all, query)
    ensures query != "" ==> forall v :: multiset(l.displayed)[v] == if Matches(v, query) then multiset(all)[v] else 0
  {
    if query != "" then
      var r := Select(all, query);
      assert forall v :: multiset(r)[v] <= multiset(all)[v];
      Listing(r, 1)
    else Listing(all, 1)
  }

  /** The list shown after a load is the fetched index in shuffled order,
      narrowed by the query: every entry keeps exactly its multiplicity in
      the index when it matches and vanishes otherwise. */
  lemma BrowseListFromIndex(data: seq<VideoData>, picks: seq<nat>, query: string)
    ensures var l := Refilter(Shuffle(data, picks), query);
            && l.page == 1
            && (query == "" ==> multiset(l.displayed) == multiset(data))
            && (query != "" ==> forall v :: multiset(l.displayed)[v] ==
                                  if Matches(v, query) then multiset(data)[v] else 0)
  {
  }

  /** JavaScript's clamping of a `slice` bound: negative values count from
      the end, and everything is clamped into `[0, len]`. */
  function SliceBound(i: int, len: nat): (k: nat)
    ensures k <= len
    ensures 0 <= i ==> k == if i < len then i else len
  {
    if i < 0 then (if len + i < 0 then 0 else len + i)
    else if i > len then len
    else i
  }

  /** `s.slice(start, end)`. */
  function Slice<T>(s: seq<T>, start: int, end: int): (r: seq<T>)
    ensures 0 <= start <= end ==> |r| <= end - start
    ensures 0 <= start <= end ==> r == s[Min(start, |s|)..Min(end, |s|)]
    ensures 0 <= end <= start ==> r == []
  {
    var from := SliceBound(start, |s|);
    var to := SliceBound(end, |s|);
    if from < to then s[from..to] else []
  }

  function Min(a: int, b: int): int {
    if a < b then a else b
  }

  /** `currentItems`: at most twelve entries on every page; for a page
      number from 1 up, the stretch `[(page-1)*12, page*12)` of the list. */
  function CurrentItems(displayed: seq<VideoData>, page: int): (r: seq<VideoData>)
    ensures |r| <= ItemsPerPage
    ensures page >= 1 ==> r == displayed[Min((page - 1) * ItemsPerPage, |displayed|)..Min(page * ItemsPerPage, |displayed|)]
  {
    var r := Slice(displayed, (page - 1) * ItemsPerPage, page * ItemsPerPage);
    var n := |displayed|;
    assert SliceBound(page * ItemsPerPage, n) <= SliceBound((page - 1) * ItemsPerPage, n) + ItemsPerPage;
    r
  }

  /** `Math.ceil(displayedVideos.length / itemsPerPage)`. */
  function TotalPages(n: nat): (t: nat)
    ensures (t - 1) * ItemsPerPage < n <= t * ItemsPerPage
  {
    (n + ItemsPerPage - 1) / ItemsPerPage
  }

  /** A page past the last one is empty rather than an error. */
  lemma PageBeyondRangeIsEmpty(displayed: seq<VideoData>, page: int)
    requires page > TotalPages(|displayed|)
    ensures CurrentItems(displayed, page) == []
  {
  }

  /** Every page from 1 to the last holds something, and the last one holds
      the remainder of the list (a full page when it divides evenly). */
  lemma PagesInRangeAreFilled(displayed: seq<VideoData>, page: int)
    requires 1 <= page <= TotalPages(|displayed|)
    ensures |CurrentItems(displayed, page)| > 0
    ensures page == TotalPages(|displayed|) ==>
              |CurrentItems(displayed, page)| == if |displayed| % ItemsPerPage == 0 then ItemsPerPage
                                                 else |displayed| % ItemsPerPage
  {
  }

  /** Pages 1 to `k`, one after the other. */
  function PagesUpTo(displayed: seq<VideoData>, k: nat): seq<VideoData>
  {
    if k == 0 then [] else PagesUpTo(displayed, k - 1) + CurrentItems(displayed, k)
  }

  lemma {:induction false} PagesUpToIsPrefix(displayed: seq<VideoData>, k: nat)
    ensures PagesUpTo(displayed, k) == displayed[..Min(k * ItemsPerPage, |displayed|)]
  {
    if k > 0 {
      PagesUpToIsPrefix(displayed, k - 1);
      var n := |displayed|;
      var a := Min((k - 1) * ItemsPerPage, n);
      var b := Min(k * ItemsPerPage, n);
      assert displayed[..a] + displayed[a..b] == displayed[..b];
    }
  }

  /** Reading the pages in order gives back the whole list, nothing lost
      and nothing repeated. */
  lemma PagesPartitionList(displayed: seq<VideoData>)
    ensures PagesUpTo(displayed, TotalPages(|displayed|)) == displayed
  {
    PagesUpToIsPrefix(displayed, TotalPages(|displayed|));
  }

  /** The pager: hidden unless there is more than one page; Previous is
      disabled on page 1, Next on the last page. */
  datatype Pager = Hidden | Shown(previousDisabled: bool, nextDisabled: bool)

  function PagerFor(page: int, total: nat): (r: Pager)
    ensures r.Shown? <==> total > 1
    ensures r.Shown? ==> (r.previousDisabled <==> page == 1) && (r.nextDisabled <==> page == total)
  {
    if total > 1 then Shown(page == 1, page == total) else Hidden
  }

  datatype Button = Previous | Next

  /** A click on a pager button: `paginate(currentPage -/+ 1)`, unless the
      pager is hidden or the button disabled. */
  function Click(l: Listing, b: Button): (l': Listing)
    ensures l'.displayed == l.displayed
    ensures l'.page == l.page || l'.page == l.page - 1 || l'.page == l.page + 1
    ensures TotalPages(|l.displayed|) <= 1 ==> l' == l
    ensures TotalPages(|l.displayed|) > 1 && b == Previous ==>
              l'.page == if l.page == 1 then l.page else l.page - 1
    ensures TotalPages(|l.displayed|) > 1 && b == Next ==>
              l'.page == if l.page == TotalPages(|l.displayed|) then l.page else l.page + 1
  {
    match PagerFor(l.page, TotalPages(|l.displayed|))
    case Hidden => l
    case Shown(previousDisabled, nextDisabled) =>
      match b
      case Previous => if previousDisabled then l else l.(page := l.page - 1)
      case Next => if nextDisabled then l else l.(page := l.page + 1)
  }

  /** Starting from a page in range, clicks never leave the range of pages
      that have entries, so the disabled buttons are exactly the guards that
      keep the page valid. */
  lemma ClickKeepsPageInRange(l: Listing, b: Button)
    requires 1 <= l.page <= TotalPages(|l.displayed|)
    ensures var l' := Click(l, b);
            && 1 <= l'.page <= TotalPages(|l'.displayed|)
            && |CurrentItems(l'.displayed, l'.page)| > 0
  {
    var l' := Click(l, b);
    PagesInRangeAreFilled(l'.displayed, l'.page);
  }

  /** Two entries, "Cat" and "Dog": the lookup of "b" finds "Dog", the query
      "cat" keeps only "Cat", and "zzz" leaves an empty list with no pages. */
  lemma CatDogExample()
    ensures var cat := VideoData("a", "Cat", "http://x/cat.mp4");
            var dog := VideoData("b", "Dog", "http://x/dog.mp4");
            && Find([cat, dog], "b") == Base.Some(dog)
            && Refilter([cat, dog], "cat").displayed == [cat]
            && Refilter([cat, dog], "zzz").displayed == []
            && TotalPages(|Refilter([cat, dog], "zzz").displayed|) == 0
  {
    var cat := VideoData("a", "Cat", "http://x/cat.mp4");
    var dog := VideoData("b", "Dog", "http://x/dog.mp4");
    assert Lower("Cat") == "cat";
    assert Lower("cat") == "cat";
    assert OccursAt("cat", "cat", 0);
    assert !Matches(dog, "cat") by {
      assert Lower("Dog") == "dog";
      assert forall i: nat :: !OccursAt("dog", "cat", i) by {
        forall i: nat ensures !OccursAt("dog", "cat", i) {
          if i == 0 { assert "dog"[0..3] != "cat" by { assert "dog"[0] != "cat"[0]; } }
        }
      }
    }
    assert Lower("zzz") == "zzz";
    assert !Matches(cat, "zzz") by {
      forall i: nat ensures !OccursAt("cat", "zzz", i) {
        if i == 0 { assert "cat"[0..3][0] != "zzz"[0]; }
      }
    }
    assert !Matches(dog, "zzz") by {
      assert Lower("Dog") == "dog";
      forall i: nat ensures !OccursAt("dog", "zzz", i) {
        if i == 0 { assert "dog"[0..3][0] != "zzz"[0]; }
      }
    }
    assert [cat, dog][1..] == [dog];
    assert [dog][1..] == [];
  }
}

=== FILE: catalog.dfy ===
/** The video index and how the playback page picks an entry from it: the
    identifier taken from the route, the lookup in the fetched index, and the
    per-load shuffle of the browse list. */
module Catalog {

  import opened Base

  /** One entry of the remote index, with the field names of its JSON
      (`Judul` is the title, `Url` the media location). */
  datatype VideoData = VideoData(id: string, judul: string, url: string)

  /** JavaScript truthiness of an optional string: present and non-empty. */
  predicate Truthy(s: Option<string>) {
    s.Some? && s.value != ""
  }

  /** `paramsId || queryId`: the path parameter when it is truthy, otherwise
      whatever the `v` query parameter holds (possibly nothing). */
  function SelectId(paramsId: Option<string>, queryId: Option<string>): (id: Option<string>)
    ensures Truthy(id) <==> Truthy(paramsId) || Truthy(queryId)
    ensures Truthy(paramsId) ==> id == paramsId
    ensures Truthy(id) && !Truthy(paramsId) ==> id == queryId
  {
    if Truthy(paramsId) then paramsId else queryId
  }

  /** `searchParams.get('search') || ''`. */
  function SearchQuery(param: Option<string>): (q: string)
    ensures q != "" <==> Truthy(param)
    ensures q != "" ==> q == param.value
  {
    if Truthy(param) then param.value else ""
  }

  /** The index of the first entry at or after `from` whose id is `id`. */
  function FindFrom(data: seq<VideoData>, id: string, from: nat): (r: Option<nat>)
    requires from <= |data|
    ensures r.Some? ==> from <= r.value < |data| && data[r.value].id == id
    ensures r.Some? ==> forall j :: from <= j < r.value ==> data[j].id != id
    ensures r.None? ==> forall j :: from <= j < |data| ==> data[j].id != id
    decreases |data| - from
  {
    if from == |data| then None
    else if data[from].id == id then Some(from)
    else FindFrom(data, id, from + 1)
  }

  /** `data.find(v => v.id === id)`: the first entry, in the given order,
      carrying the requested id. */
  function Find(data: seq<VideoData>, id: string): (r: Option<VideoData>)
    ensures r.None? <==> forall j :: 0 <= j < |data| ==> data[j].id != id
    ensures r.Some? ==> exists i :: 0 <= i < |data| && data[i] == r.value && r.value.id == id
                                    && forall j :: 0 <= j < i ==> data[j].id != id
  {
    match FindFrom(data, id, 0)
    case Some(i) => Some(data[i])
    case None => None
  }

  /** A reordering of `data` driven by a sequence of random draws: each draw
      picks the next element among those not yet placed. Every permutation is
      reachable, so this stands for whatever order the source's sort with a
      random comparator produces. */
  function Shuffle<T>(data: seq<T>, picks: seq<nat>): (r: seq<T>)
    ensures multiset(r) == multiset(data)
    decreases |data|
  {
    if data == [] then []
    else
      var k := (if picks == [] then 0 else picks[0]) % |data|;
      var rest := data[..k] + data[k + 1..];
      assert data == data[..k] + [data[k]] + data[k + 1..];
      [data[k]] + Shuffle(rest, if picks == [] then [] else picks[1..])
  }

  /** The draws decide the order: the same two elements come out in either
      order, so two loads of one index can list it differently. */
  lemma DrawsDecideOrder<T>(a: T, b: T)
    ensures Shuffle([a, b], [0]) == [a, b]
    ensures Shuffle([a, b], [1]) == [b, a]
  {
    DrawZero(a, b);
    DrawOne(a, b);
  }

  lemma DrawZero<T>(a: T, b: T)
    ensures Shuffle([a, b], [0]) == [a, b]
  {
    var d := [a, b];
    assert d[..0] + d[1..] == [b];
    assert [0][1..] == [];
    assert [b][..0] + [b][1..] == [];
    assert [a] + [b] == [a, b];
  }

  lemma DrawOne<T>(a: T, b: T)
    ensures Shuffle([a, b], [1]) == [b, a]
  {
    var d := [a, b];
    assert d[..1] + d[2..] == [a];
    assert [1][1..] == [];
    assert [a][..0] + [a][1..] == [];
    assert [b] + [a] == [b, a];
  }

  /** No two entries share an id. */
  ghost predicate UniqueIds(data: seq<VideoData>) {
    forall i, j :: 0 <= i < |data| && 0 <= j < |data| && data[i].id == data[j].id ==> i == j
  }

  /** With unique ids, the lookup gives the same answer on any reordering of
      the index, so searching the unshuffled array is harmless. */
  lemma FindIgnoresOrderWhenIdsUnique(data: seq<VideoData>, other: seq<VideoData>, id: string)
    requires UniqueIds(data) && multiset(other) == multiset(data)
    ensures Find(other, id) == Find(data, id)
  {
    var a := Find(data, id);
    var b := Find(other, id);
    if b.Some? {
      assert b.value in multiset(data);
    }
    if a.Some? {
      assert a.value in multiset(other);
      assert b.value in multiset(data);
      var x :| 0 <= x < |data| && data[x] == a.value;
      var y :| 0 <= y < |data| && data[y] == b.value;
    }
  }

  /** With a duplicated id, the order decides which entry wins: the first
      match of the fetched order, not of the shuffled one. */
  lemma FirstMatchDependsOnOrder()
    ensures var first := VideoData("a", "First", "https://x/1.mp4");
            var second := VideoData("a", "Second", "https://x/2.mp4");
            && Find([first, second], "a") == Some(first)
            && Find([second, first], "a") == Some(second)
  {
  }
}

=== FILE: fetch_session.dfy ===
/** The data-fetch effect of the playback page, as a state machine. Each run
    of the effect (on mount, and again whenever the requested id changes)
    fetches the index, resolves the id in it, and materialises the media of
    the match as an object URL, falling back to the remote URL. The network
    results arrive as events carrying their outcome; every commit to
    component state is gated on the run's own `isMounted` flag, which the
    run's cleanup clears. Object URLs are tracked as the set of handles that
    have been created and not yet revoked. */
module FetchSession {

  import opened Base
  import opened Text
  import opened Catalog

  /** How the index request of a run ended: the parsed array together with
      the random draws of its shuffle, or a network or parse failure. */
  datatype IndexResult = IndexLoaded(data: seq<VideoData>, picks: seq<nat>) | IndexFailed

  /** How the media request of a run ended: an ok response whose blob was
      wrapped as an object URL (`token` is the part after the scheme), a
      response that was not ok, or a thrown error. */
  datatype MediaResult = MediaLoaded(token: string) | MediaNotOk | MediaFailed

  /** The component state the effect writes. */
  datatype View = View(loading: bool, videoData: Option<VideoData>, blobUrl: string, allVideos: seq<VideoData>)

  /** Where a run is: waiting for the index, waiting for the media of the
      resolved entry, or finished. */
  datatype Phase = AwaitingIndex | AwaitingMedia(target: VideoData) | Settled

  /** One run of the effect: the id it was started for, its `isMounted` flag,
      and the `blobUrl` value its cleanup closure captured when it started. */
  datatype Run = Run(id: Option<string>, mounted: bool, captured: string, phase: Phase)

  /** The page: component state, the layout's `showSearch` flag, every run
      started so far (the last is the current one), and the object URLs that
      are live. */
  datatype Page = Page(view: View, showSearch: bool, runs: seq<Run>, handles: set<string>)

  const BlobScheme: string := "blob:"

  /** The URL `URL.createObjectURL` returns. */
  function ObjectUrl(token: string): (u: string)
    ensures StartsWith(u, BlobScheme)
  {
    BlobScheme + token
  }

  /** The page before its first effect: loading, nothing resolved, an empty
      source and an empty list. */
  const Initial: Page := Page(View(true, None, "", []), false, [], {})

  /** Only the current run may still be mounted. */
  ghost predicate Valid(p: Page) {
    forall k :: 0 <= k < |p.runs| - 1 ==> !p.runs[k].mounted
  }

  /** The page starts out valid, so `StepKeepsValid` covers every reachable page. */
  lemma InitialIsValid()
    ensures Valid(Initial)
  {
  }

  /** The id the page is rendered for. */
  function CurrentId(p: Page): Option<string> {
    if p.runs == [] then None else p.runs[|p.runs| - 1].id
  }

  /** The effect's cleanup for the current run: the run is marked unmounted,
      the search box hidden, and the captured `blobUrl` revoked when it is an
      object URL. */
  function Cleanup(p: Page): (p': Page)
    ensures p'.view == p.view && |p'.runs| == |p.runs|
    ensures forall k :: 0 <= k < |p'.runs| ==> !p'.runs[k].mounted || (k < |p.runs| - 1 && p.runs[k].mounted)
    ensures forall k :: 0 <= k < |p'.runs| ==> p'.runs[k].phase == p.runs[k].phase && p'.runs[k].captured == p.runs[k].captured
    ensures forall k :: 0 <= k < |p'.runs| ==> p'.runs[k].id == p.runs[k].id
    ensures p.runs == [] ==> p' == p
    ensures p.runs != [] ==> !p'.showSearch
    ensures p.runs != [] ==>
              var c := p.runs[|p.runs| - 1].captured;
              p'.handles == if StartsWith(c, BlobScheme) then p.handles - {c} else p.handles
  {
    if p.runs == [] then p
    else
      var last := p.runs[|p.runs| - 1];
      Page(p.view, false,
           p.runs[..|p.runs| - 1] + [last.(mounted := false)],
           if StartsWith(last.captured, BlobScheme) then p.handles - {last.captured} else p.handles)
  }

  /** The effect runs for `id`: the previous run is cleaned up, then a new
      run starts, which at once shows the spinner and hides the search box.
      Nothing else is reset: the resolved entry and the source stay. */
  function Start(p: Page, id: Option<string>): (p': Page)
    ensures |p'.runs| == |p.runs| + 1 && p'.runs[|p.runs|] == Run(id, true, p.view.blobUrl, AwaitingIndex)
    ensures Valid(p) ==> forall k :: 0 <= k < |p.runs| ==> !p'.runs[k].mounted
    ensures p'.view == p.view.(loading := true)
    ensures !p'.showSearch && p'.runs[..|p.runs|] == Cleanup(p).runs
    ensures p.runs == [] ==> p'.handles == p.handles
    ensures p.runs != [] ==>
              var c := p.runs[|p.runs| - 1].captured;
              p'.handles == if StartsWith(c, BlobScheme) then p.handles - {c} else p.handles
  {
    var q := Cleanup(p);
    Page(q.view.(loading := true), false, q.runs + [Run(id, true, p.view.blobUrl, AwaitingIndex)], q.handles)
  }

  /** The `finally` step: the run is over, and the spinner goes away if the
      run is still mounted. */
  function Settle(p: Page, k: nat): (p': Page)
    requires k < |p.runs|
    ensures p'.runs == p.runs[k := p.runs[k].(phase := Settled)]
    ensures p'.handles == p.handles && p'.showSearch == p.showSearch
    ensures p'.view == if p.runs[k].mounted then p.view.(loading := false) else p.view
  {
    var run := p.runs[k];
    Page(if run.mounted then p.view.(loading := false) else p.view, p.showSearch,
         p.runs[k := run.(phase := Settled)], p.handles)
  }

  /** The index response of run `k` arrives. A mounted run stores the
      shuffled list and, when it has an id, looks the id up in the fetched
      (unshuffled) array; a match is stored and its media requested, no match
      ends the run with the previous entry left in place. */
  function IndexArrives(p: Page, k: nat, result: IndexResult): (p': Page)
    ensures p'.handles == p.handles && |p'.runs| == |p.runs|
    ensures k < |p.runs| ==> p'.runs == p.runs[k := p.runs[k].(phase := p'.runs[k].phase)]
    ensures forall j :: 0 <= j < |p.runs| ==> p'.runs[j].mounted == p.runs[j].mounted
    ensures k < |p.runs| && !p.runs[k].mounted ==> p'.view == p.view && p'.showSearch == p.showSearch
    ensures k < |p.runs| && p.runs[k].mounted && p.runs[k].phase.AwaitingIndex? && result.IndexLoaded? ==>
              && multiset(p'.view.allVideos) == multiset(result.data)
              && var id := p.runs[k].id;
                 if Truthy(id) && exists i :: 0 <= i < |result.data| && result.data[i].id == id.value then
                   exists i :: && 0 <= i < |result.data| && result.data[i].id == id.value
                               && (forall j :: 0 <= j < i ==> result.data[j].id != id.value)
                               && p'.view.videoData == Some(result.data[i])
                               && p'.runs[k].phase == AwaitingMedia(result.data[i])
                               && p'.view.loading == p.view.loading
                               && p'.showSearch
                 else
                   p'.view.videoData == p.view.videoData && !p'.view.loading && p'.runs[k].phase.Settled?
    ensures k < |p.runs| && p.runs[k].mounted && p.runs[k].phase.AwaitingIndex? && result.IndexLoaded?
            && !(Truthy(p.runs[k].id) && exists i :: 0 <= i < |result.data| && result.data[i].id == p.runs[k].id.value) ==>
              p'.showSearch == p.showSearch
    ensures k < |p.runs| && p.runs[k].mounted && p.runs[k].phase.AwaitingIndex? && result.IndexLoaded? ==>
              p'.view.allVideos == Shuffle(result.data, result.picks) && p'.view.blobUrl == p.view.blobUrl
    ensures k < |p.runs| && p.runs[k].mounted && p.runs[k].phase.AwaitingIndex? && result.IndexFailed? ==>
              p'.view == p.view.(loading := false) && p'.runs[k].phase.Settled?
  {
    if k >= |p.runs| || !p.runs[k].phase.AwaitingIndex? then p
    else
      var run := p.runs[k];
      match result
      case IndexFailed => Settle(p, k)
      case IndexLoaded(data, picks) =>
        if !run.mounted then Settle(p, k)
        else
          var q := p.(view := p.view.(allVideos := Shuffle(data, picks)));
          if Truthy(run.id) then
            match Find(data, run.id.value)
            case Some(target) =>
              q.(view := q.view.(videoData := Some(target)), showSearch := true,
                 runs := q.runs[k := run.(phase := AwaitingMedia(target))])
            case None => Settle(q, k)
          else Settle(q, k)
  }

  /** The media response of run `k` arrives. An ok response always creates
      an object URL, mounted or not; only a mounted run stores a source: the
      object URL, or on failure the entry's own `Url`. */
  function MediaArrives(p: Page, k: nat, result: MediaResult): (p': Page)
    ensures |p'.runs| == |p.runs| && p'.showSearch == p.showSearch
    ensures k < |p.runs| ==> p'.runs == p.runs[k := p.runs[k].(phase := p'.runs[k].phase)]
    ensures forall j :: 0 <= j < |p.runs| ==> p'.runs[j].mounted == p.runs[j].mounted
    ensures k < |p.runs| && !p.runs[k].mounted ==> p'.view == p.view
    ensures k < |p.runs| && p.runs[k].phase.AwaitingMedia? ==>
              && p'.runs[k].phase.Settled?
              && (result.MediaLoaded? ==> p'.handles == p.handles + {ObjectUrl(result.token)})
              && (!result.MediaLoaded? ==> p'.handles == p.handles)
              && (p.runs[k].mounted ==>
                    && !p'.view.loading
                    && p'.view.videoData == p.view.videoData
                    && p'.view.allVideos == p.view.allVideos
                    && (result.MediaLoaded? ==> p'.view.blobUrl == ObjectUrl(result.token) && p'.view.blobUrl in p'.handles)
                    && (!result.MediaLoaded? ==> p'.view.blobUrl == p.runs[k].phase.target.url))
    ensures !(k < |p.runs| && p.runs[k].phase.AwaitingMedia?) ==> p' == p
  {
    if k >= |p.runs| || !p.runs[k].phase.AwaitingMedia? then p
    else
      var run := p.runs[k];
      var source := if result.MediaLoaded? then ObjectUrl(result.token) else run.phase.target.url;
      var handles := if result.MediaLoaded? then p.handles + {source} else p.handles;
      Settle(p.(view := if run.mounted then p.view.(blobUrl := source) else p.view, handles := handles), k)
  }

  /** An event the page can receive. */
  datatype Event =
    | Navigate(id: Option<string>)
    | IndexResponse(run: nat, index: IndexResult)
    | MediaResponse(run: nat, media: MediaResult)
    | Unmount

  function Step(p: Page, e: Event): Page {
    match e
    case Navigate(id) => Start(p, id)
    case IndexResponse(k, r) => IndexArrives(p, k, r)
    case MediaResponse(k, r) => MediaArrives(p, k, r)
    case Unmount => Cleanup(p)
  }

  /** Every event keeps all but the current run unmounted. */
  lemma StepKeepsValid(p: Page, e: Event)
    requires Valid(p)
    ensures Valid(Step(p, e))
  {
  }

  /** A response for a run that has been superseded (the id changed) or
      cleaned up never changes what the component holds: no list, entry,
      source or loading flag is committed. */
  lemma StaleResponsesNeverCommit(p: Page, e: Event)
    requires Valid(p)
    requires e.IndexResponse? || e.MediaResponse?
    requires e.run < |p.runs| && (e.run < |p.runs| - 1 || !p.runs[e.run].mounted)
    ensures Step(p, e).view == p.view
  {
  }

  /** What the page renders. */
  datatype Screen = Spinner | Unavailable | Content(video: Option<VideoData>, source: string)

  function Render(p: Page): (s: Screen)
    ensures s.Unavailable? <==> !p.view.loading && Truthy(CurrentId(p)) && p.view.videoData.None?
    ensures s.Spinner? <==> p.view.loading
    ensures s.Content? ==> s == Content(p.view.videoData, p.view.blobUrl)
  {
    if p.view.loading then Spinner
    else if Truthy(CurrentId(p)) && p.view.videoData.None? then Unavailable
    else Content(p.view.videoData, p.view.blobUrl)
  }

  /** Opening the page on an id the index does not hold, or when the index
      cannot be loaded, ends on the "Content Unavailable" screen. */
  lemma UnknownIdIsUnavailable(id: string, result: IndexResult)
    requires id != ""
    requires result.IndexLoaded? ==> forall j :: 0 <= j < |result.data| ==> result.data[j].id != id
    ensures Render(IndexArrives(Start(Initial, Some(id)), 0, result)) == Unavailable
  {
  }

  /** Opening the page on a known id plays the first entry with that id in
      fetched order, from an object URL when the media loads and from the
      entry's remote URL otherwise. */
  lemma KnownIdPlays(id: string, data: seq<VideoData>, picks: seq<nat>, i: nat, media: MediaResult)
    requires i < |data| && data[i].id == id && id != ""
    requires forall j :: 0 <= j < i ==> data[j].id != id
    ensures var p := MediaArrives(IndexArrives(Start(Initial, Some(id)), 0, IndexLoaded(data, picks)), 0, media);
            && Render(p).Content?
            && Render(p).video == Some(data[i])
            && (media.MediaLoaded? ==> Render(p).source == ObjectUrl(media.token))
            && (!media.MediaLoaded? ==> Render(p).source == data[i].url && p.handles == {})
  {
    var p1 := IndexArrives(Start(Initial, Some(id)), 0, IndexLoaded(data, picks));
    var i' :| && 0 <= i' < |data| && data[i'].id == id
              && (forall j :: 0 <= j < i' ==> data[j].id != id)
              && p1.view.videoData == Some(data[i'])
              && p1.runs[0].phase == AwaitingMedia(data[i']);
    assert i' == i;
  }

  /** A remote fallback source is never revoked: the cleanup only revokes
      what starts with the object-URL scheme. */
  lemma FallbackIsNeverRevoked(p: Page)
    requires p.runs != [] && !StartsWith(p.runs[|p.runs| - 1].captured, BlobScheme)
    ensures Cleanup(p).handles == p.handles
  {
  }

  /** The cleanup revokes the source captured when its run started, not the
      one the run later stored: whenever the current run plays a new object
      URL, that URL is still live after the page unmounts. */
  lemma LastObjectUrlOutlivesUnmount(p: Page, token: string)
    requires Valid(p) && p.runs != []
    requires p.runs[|p.runs| - 1].mounted && p.runs[|p.runs| - 1].phase.AwaitingMedia?
    requires p.runs[|p.runs| - 1].captured != ObjectUrl(token)
    ensures var q := MediaArrives(p, |p.runs| - 1, MediaLoaded(token));
            && q.view.blobUrl == ObjectUrl(token)
            && ObjectUrl(token) in Cleanup(q).handles
  {
  }

  /** A media response that lands after the cleanup still creates an object
      URL, which nothing will ever revoke, and commits nothing. */
  lemma LateMediaLeaksHandle(p: Page, token: string)
    requires Valid(p) && p.runs != []
    requires p.runs[|p.runs| - 1].phase.AwaitingMedia?
    ensures var q := MediaArrives(Cleanup(p), |p.runs| - 1, MediaLoaded(token));
            && q.view == p.view
            && ObjectUrl(token) in q.handles
  {
  }

  /** Changing the id does not clear the entry already shown: if the new id
      is not in the index, the page keeps showing the previous video instead
      of the "Content Unavailable" screen. */
  lemma PreviousVideoSurvivesUnknownId(p: Page, id: string, data: seq<VideoData>, picks: seq<nat>)
    requires p.view.videoData.Some?
    requires id != "" && forall j :: 0 <= j < |data| ==> data[j].id != id
    ensures var q := IndexArrives(Start(p, Some(id)), |p.runs|, IndexLoaded(data, picks));
            && q.view.videoData == p.view.videoData
            && Render(q) == Content(p.view.videoData, p.view.blobUrl)
  {
  }

  /** Every change of id reshuffles the browse list: the new run stores the
      shuffle of its own index response, whatever list was shown before. */
  lemma ReshuffledOnEveryIdChange(p: Page, id: Option<string>, data: seq<VideoData>, picks: seq<nat>)
    ensures var q := IndexArrives(Start(p, id), |p.runs|, IndexLoaded(data, picks));
            q.view.allVideos == Shuffle(data, picks)
  {
    var p1 := Start(p, id);
    assert p1.runs[|p.runs|].mounted && p1.runs[|p.runs|].phase.AwaitingIndex?;
  }

  /** Changing the id releases the previous video's object URL: the second
      navigation's cleanup revokes the handle the first run created, because
      that run's successor captured it. */
  lemma IdChangeRevokesPreviousObjectUrl(id1: string, id2: Option<string>, id3: Option<string>, data: seq<VideoData>, picks: seq<nat>, token: string)
    requires id1 != "" && exists j :: 0 <= j < |data| && data[j].id == id1
    ensures var p := MediaArrives(IndexArrives(Start(Initial, Some(id1)), 0, IndexLoaded(data, picks)), 0, MediaLoaded(token));
            var q := Start(Start(p, id2), id3);
            && ObjectUrl(token) in Start(p, id2).handles
            && ObjectUrl(token) !in q.handles
  {
  }
}

=== FILE: hand_off.dfy ===
/** The download hand-off of the playback page (`handleDownload`): the
    entry's URL and title go into session storage for the download page,
    which opens in a new tab, and the ad policy is given a chance to fire. */
module HandOff {

  import opened Base
  import opened Catalog
  import AdCooldown

  const DownloadRoute: string := "/download"

  /** The session-storage entries the page uses: `lastAdTime`, `videoUrl`
      and `videoTitle`. */
  datatype Session = Session(cooldown: AdCooldown.Cooldown, videoUrl: Option<string>, videoTitle: Option<string>)

  /** The new storage, and the URLs opened in new tabs, in order. */
  datatype Outcome = Outcome(session: Session, tabs: seq<string>)

  /** A click on "Download Video" at time `now`. */
  function Download(s: Session, videoData: Option<VideoData>, now: int, choice: nat): (r: Outcome)
    requires choice < |AdCooldown.AdUrls|
    ensures videoData.None? ==> r == Outcome(s, [])
    ensures videoData.Some? ==>
              && r.session.videoUrl == Some(videoData.value.url)
              && r.session.videoTitle == Some(videoData.value.judul)
              && 1 <= |r.tabs| <= 2 && r.tabs[0] == DownloadRoute
              && (|r.tabs| == 2 <==> AdCooldown.Ready(s.cooldown, now))
              && (|r.tabs| == 2 ==> r.tabs[1] in AdCooldown.AdUrls)
              && r.session.cooldown == if AdCooldown.Ready(s.cooldown, now)
                                       then AdCooldown.Cooldown(Some(now)) else s.cooldown
  {
    match videoData
    case None => Outcome(s, [])
    case Some(v) =>
      var ad := AdCooldown.Trigger(s.cooldown, now, choice);
      Outcome(Session(ad.storage, Some(v.url), Some(v.judul)),
              [DownloadRoute] + (if ad.redirect.Some? then [ad.redirect.value] else []))
  }

  /** What the download page reads back: the URL to fetch and the file name,
      `videoTitle || 'video'`. */
  function Received(s: Session): (r: (Option<string>, string))
    ensures r.1 != ""
  {
    (s.videoUrl, if s.videoTitle.Some? && s.videoTitle.value != "" then s.videoTitle.value else "video")
  }

  /** The download page receives exactly the entry that was on screen, named
      after its title unless the title is empty. */
  lemma HandOffRoundTrip(s: Session, v: VideoData, now: int, choice: nat)
    requires choice < |AdCooldown.AdUrls|
    ensures var got := Received(Download(s, Some(v), now, choice).session);
            && got.0 == Some(v.url)
            && got.1 == (if v.judul != "" then v.judul else "video")
  {
  }
}

=== FILE: player.dfy ===
/** The player effect of the playback page: after each change of the source
    it schedules `initPlayer` on a 100 ms timer, and its cleanup cancels the
    timer and destroys the held player. The player library is opaque: an
    instance is a serial number plus the events `adRedirect` is attached
    to, and destroying an instance that is already destroyed throws. */
module Player {

  import opened Base
  import AdCooldown

  /** The events `initPlayer` attaches `adRedirect` to. */
  const AdEvents: seq<string> := ["play", "pause", "seeked"]

  /** One player instance: its construction number and its subscribed events. */
  datatype Instance = Instance(serial: nat, handlers: seq<string>)

  /** `held` is `playerInstance.current`; `armed` says the last effect run
      returned a cleanup; `pending` says its init timer has not fired or been
      cleared; `live` holds the serials of instances not yet destroyed;
      `built` counts the instances constructed so far. */
  datatype Lifecycle = Lifecycle(held: Option<Instance>, armed: bool, pending: bool, live: set<nat>, built: nat)

  const Unmounted: Lifecycle := Lifecycle(None, false, false, {}, 0)

  /** Every live instance is the held one, it carries the three handlers,
      and a timer is pending, or an instance live, only while the last
      effect run is armed (so its cleanup will destroy it). */
  ghost predicate Valid(l: Lifecycle) {
    && (l.pending ==> l.armed)
    && (l.live != {} ==> l.armed)
    && (forall s :: s in l.live ==> l.held.Some? && s == l.held.value.serial)
    && (l.held.Some? ==> l.held.value.serial < l.built && l.held.value.handlers == AdEvents)
  }

  /** The page mounts valid, so `StepKeepsValid` covers every reachable lifecycle. */
  lemma UnmountedIsValid()
    ensures Valid(Unmounted)
  {
  }

  /** What `playerInstance.current.destroy()` did. */
  datatype Attempt = NothingHeld | Destroyed | Threw

  /** `if (held) try { held.destroy() } catch (e) { }`: the held reference
      is kept either way, and a throw goes no further than this step. */
  function TryDestroy(l: Lifecycle): (r: (Lifecycle, Attempt))
    ensures r.0 == l.(live := r.0.live)
    ensures r.1 == NothingHeld <==> l.held.None?
    ensures r.1 == Destroyed <==> l.held.Some? && l.held.value.serial in l.live
    ensures l.held.Some? ==> r.0.live == l.live - {l.held.value.serial}
    ensures l.held.None? ==> r.0.live == l.live
  {
    match l.held
    case None => (l, NothingHeld)
    case Some(i) =>
      if i.serial in l.live then (l.(live := l.live - {i.serial}), Destroyed) else (l, Threw)
  }

  /** The cleanup: `clearTimeout(timer)`, then the guarded destroy. */
  function Cleanup(l: Lifecycle): (l': Lifecycle)
    ensures !l'.pending
    ensures Valid(l) ==> l'.live == {}
    ensures l'.held == l.held && l'.built == l.built
  {
    TryDestroy(l.(pending := false)).0
  }

  /** The effect runs for a new source: the previous run's cleanup, if it
      returned one, then either an early return (no source, or no mount node
      in the document) or a scheduled `initPlayer`. */
  function Rerun(l: Lifecycle, source: string, mountNode: bool): (l': Lifecycle)
    ensures l'.pending <==> source != "" && mountNode
    ensures l'.armed == l'.pending
    ensures l'.held == l.held && l'.built == l.built
    ensures l'.live <= l.live
    ensures Valid(l) ==> l'.live == {}
  {
    var l0 := if l.armed then Cleanup(l) else l;
    if source == "" || !mountNode then l0.(armed := false, pending := false)
    else l0.(armed := true, pending := true)
  }

  /** The init timer fires: destroy whatever is held, then, when the player
      library is loaded, construct a new instance and attach `adRedirect` to
      its three events. A timer that was cleared does nothing. */
  function Fire(l: Lifecycle, libraryLoaded: bool): (l': Lifecycle)
    ensures !l.pending ==> l' == l
    ensures l.pending ==> !l'.pending
    ensures l.pending && libraryLoaded ==>
              l'.held == Some(Instance(l.built, AdEvents)) && l'.built == l.built + 1
    ensures l.pending && !libraryLoaded ==> l'.held == l.held && l'.built == l.built
  {
    if !l.pending then l
    else
      var d := TryDestroy(l).0.(pending := false);
      if libraryLoaded then
        d.(held := Some(Instance(d.built, AdEvents)), live := d.live + {d.built}, built := d.built + 1)
      else d
  }

  /** The page unmounts: the last cleanup runs, if there is one. */
  function Unmount(l: Lifecycle): (l': Lifecycle)
    ensures !l'.armed
    ensures Valid(l) ==> !l'.pending && l'.live == {}
    ensures l'.held == l.held && l'.built == l.built && l'.live <= l.live
  {
    (if l.armed then Cleanup(l) else l).(armed := false)
  }

  datatype Event = SourceChanged(source: string, mountNode: bool) | TimerFired(libraryLoaded: bool) | PageUnmounted

  function Step(l: Lifecycle, e: Event): Lifecycle {
    match e
    case SourceChanged(source, mountNode) => Rerun(l, source, mountNode)
    case TimerFired(libraryLoaded) => Fire(l, libraryLoaded)
    case PageUnmounted => Unmount(l)
  }

  /** Every step keeps the held instance the only one that can be live. */
  lemma StepKeepsValid(l: Lifecycle, e: Event)
    requires Valid(l)
    ensures Valid(Step(l, e))
  {
  }

  /** Never more than one live player. */
  lemma AtMostOneLive(l: Lifecycle)
    requires Valid(l)
    ensures |l.live| <= 1
  {
    if l.live != {} {
      var s :| s in l.live;
      assert l.live == {s};
    }
  }

  /** `initPlayer` destroys the held instance before constructing the next
      one: afterwards exactly the new instance is live, and it carries
      `adRedirect` on exactly `play`, `pause` and `seeked`. */
  lemma InitReplacesInstance(l: Lifecycle)
    requires Valid(l) && l.pending
    ensures var l' := Fire(l, true);
            && l'.live == {l.built}
            && l'.held.Some? && l'.held.value.serial == l.built
            && (forall e :: e in l'.held.value.handlers <==> e == "play" || e == "pause" || e == "seeked")
  {
  }

  /** Without a source or a mount node the effect schedules nothing, so no
      player is constructed, whatever the timer does. */
  lemma NoInitWithoutSourceOrMount(l: Lifecycle, source: string, mountNode: bool, libraryLoaded: bool)
    requires source == "" || !mountNode
    ensures var l' := Rerun(l, source, mountNode);
            Fire(l', libraryLoaded) == l'
  {
  }

  /** After the page unmounts no construction happens, and nothing is live. */
  lemma NoConstructionAfterUnmount(l: Lifecycle, libraryLoaded: bool)
    requires Valid(l)
    ensures Fire(Unmount(l), libraryLoaded) == Unmount(l)
    ensures Unmount(l).live == {}
  {
  }

  /** The held reference is never cleared, so when the source changes the
      cleanup destroys the player and the next `initPlayer` destroys the same
      player again. That second destroy throws, and the throw is swallowed:
      the new player is still constructed. */
  lemma SecondDestroyIsSwallowed(l: Lifecycle, source: string)
    requires Valid(l) && l.armed && !l.pending && l.held.Some? && l.held.value.serial in l.live
    requires source != ""
    ensures var l1 := Rerun(l, source, true);
            && TryDestroy(l1).1 == Threw
            && Fire(l1, true).held == Some(Instance(l.built, AdEvents))
            && Fire(l1, true).live == {l.built}
  {
  }

  /** A player event reaches `adRedirect` only when the live held player
      has it subscribed. */
  function Dispatch(l: Lifecycle, event: string, c: AdCooldown.Cooldown, now: int, choice: nat): (r: AdCooldown.Outcome)
    requires choice < |AdCooldown.AdUrls|
    ensures r.redirect.None? ==> r.storage == c
    ensures r.redirect.Some? ==> l.held.Some? && l.held.value.serial in l.live
    ensures Valid(l) && r.redirect.Some? ==> event == "play" || event == "pause" || event == "seeked"
    ensures Valid(l) && l.held.Some? && l.held.value.serial in l.live && event in AdEvents ==>
              r == AdCooldown.Trigger(c, now, choice)
  {
    if l.held.Some? && l.held.value.serial in l.live && event in l.held.value.handlers
    then AdCooldown.Trigger(c, now, choice)
    else AdCooldown.Outcome(c, None)
  }
}

=== FILE: search_route.dfy ===
/** The search form of the page layout (`handleSearch`): the typed term is
    trimmed and turned into a navigation target. */
module SearchRoute {

  import opened Text

  const SearchPrefix: string := "/search?search="
  const Home: string := "/"

  /** The navigation target for a submitted term: the search route with the
      trimmed term appended as it is (no URL encoding), or the home route
      when nothing but whitespace was typed. */
  function Target(searchTerm: string): (target: string)
    ensures target == Home <==> AllWhitespace(searchTerm)
    ensures target != Home ==>
              && StartsWith(target, SearchPrefix)
              && var term := target[|SearchPrefix|..];
                 term != [] && Tight(term)
  {
    var trimmed := Trim(searchTerm);
    TrimEmptyIffBlank(searchTerm);
    if trimmed != "" then
      var target := SearchPrefix + trimmed;
      assert target[|SearchPrefix|..] == trimmed;
      target
    else Home
  }

  /** The target depends on the trimmed term only: whitespace added around
      the input changes nothing. */
  lemma TargetIgnoresPadding(p: string, searchTerm: string, q: string)
    requires AllWhitespace(p) && AllWhitespace(q)
    ensures Target(p + searchTerm + q) == Target(searchTerm)
  {
    TrimIgnoresPadding(p, searchTerm, q);
  }

  /** The term read back off a search target is the input with its
      surrounding whitespace removed, character for character. */
  lemma TargetEmbedsTrimmedTerm(searchTerm: string)
    requires !AllWhitespace(searchTerm)
    ensures Target(searchTerm) == SearchPrefix + Trim(searchTerm)
    ensures var term := Target(searchTerm)[|SearchPrefix|..];
            exists pre, post :: searchTerm == pre + term + post && AllWhitespace(pre) && AllWhitespace(post)
  {
    TrimEmptyIffBlank(searchTerm);
    var pre, post := TrimSplit(searchTerm);
    assert Target(searchTerm)[|SearchPrefix|..] == Trim(searchTerm);
  }

  /** The term goes into the target verbatim: characters that are special in
      a query string are not encoded. */
  lemma TermIsNotEncoded()
    ensures Target(" a&b ") == "/search?search=a&b"
  {
    assert " a&b " == " " + "a&b" + " ";
    assert Tight("a&b") by { assert !IsWhitespace('a') && !IsWhitespace('b'); }
    TrimOfPadded(" ", "a&b", " ");
    assert SearchPrefix + "a&b" == "/search?search=a&b";
  }
}

=== FILE: text.dfy ===
/** String primitives the page relies on, with the JavaScript semantics the
    source uses: `String.prototype.trim`, `toLowerCase`, `includes` and
    `startsWith`. A string is a `seq<char>`, one Unicode scalar value per
    element; JavaScript's UTF-16 code units are not modelled. */
module Text {

  /** The characters `trim` removes: WhiteSpace and LineTerminator of
      ECMAScript (section 22.1.3.32 of ECMA-262 refers to both sets). */
  predicate IsWhitespace(c: char) {
    || c == '\t' || c == '\n' || c == '\U{000B}' || c == '\U{000C}' || c == '\r' || c == ' '
    || c == '\U{00A0}' || c == '\U{1680}' || ('\U{2000}' <= c <= '\U{200A}')
    || c == '\U{2028}' || c == '\U{2029}' || c == '\U{202F}' || c == '\U{205F}'
    || c == '\U{3000}' || c == '\U{FEFF}'
  }

  ghost predicate AllWhitespace(s: string) {
    forall i :: 0 <= i < |s| ==> IsWhitespace(s[i])
  }

  /** Neither end of `s` is whitespace (the empty string qualifies). */
  ghost predicate Tight(s: string) {
    s == [] || (!IsWhitespace(s[0]) && !IsWhitespace(s[|s| - 1]))
  }

  /** Drops the longest whitespace prefix. */
  function TrimStart(s: string): (r: string)
    ensures |r| <= |s| && r == s[|s| - |r|..]
    ensures AllWhitespace(s[..|s| - |r|])
    ensures r == [] || !IsWhitespace(r[0])
  {
    if |s| > 0 && IsWhitespace(s[0]) then
      var r := TrimStart(s[1..]);
      assert s[..|s| - |r|] == [s[0]] + s[1..][..|s[1..]| - |r|];
      r
    else s
  }

  /** Drops the longest whitespace suffix. */
  function TrimEnd(s: string): (r: string)
    ensures |r| <= |s| && r == s[..|r|]
    ensures AllWhitespace(s[|r|..])
    ensures r == [] || !IsWhitespace(r[|r| - 1])
  {
    if |s| > 0 && IsWhitespace(s[|s| - 1]) then
      var r := TrimEnd(s[..|s| - 1]);
      assert s[|r|..] == s[..|s| - 1][|r|..] + [s[|s| - 1]];
      r
    else s
  }

  /** `s.trim()`: `s` is the trimmed string wrapped in whitespace on both sides. */
  function Trim(s: string): (r: string)
    ensures Tight(r) && |r| <= |s|
  {
    TrimEnd(TrimStart(s))
  }

  /** A whitespace prefix is dropped entirely, whatever follows it. */
  lemma {:induction false} TrimStartSkipsWhitespace(p: string, rest: string)
    requires AllWhitespace(p)
    ensures TrimStart(p + rest) == TrimStart(rest)
    decreases |p|
  {
    if p == [] {
      assert p + rest == rest;
    } else {
      assert (p + rest)[0] == p[0];
      assert (p + rest)[1..] == p[1..] + rest;
      TrimStartSkipsWhitespace(p[1..], rest);
    }
  }

  /** A whitespace suffix is dropped entirely, whatever precedes it. */
  lemma {:induction false} TrimEndSkipsWhitespace(rest: string, q: string)
    requires AllWhitespace(q)
    ensures TrimEnd(rest + q) == TrimEnd(rest)
    decreases |q|
  {
    if q == [] {
      assert rest + q == rest;
    } else {
      var q' := q[..|q| - 1];
      assert (rest + q)[|rest + q| - 1] == q[|q| - 1];
      assert (rest + q)[..|rest + q| - 1] == rest + q';
      TrimEndSkipsWhitespace(rest, q');
    }
  }

  lemma AppendWhitespace(a: string, b: string)
    requires AllWhitespace(a) && AllWhitespace(b)
    ensures AllWhitespace(a + b)
  {
    forall i | 0 <= i < |a + b| ensures IsWhitespace((a + b)[i]) {
      if i < |a| { assert (a + b)[i] == a[i]; } else { assert (a + b)[i] == b[i - |a|]; }
    }
  }

  /** `trim` is determined by the decomposition: whatever whitespace is wrapped
      around a tight string, trimming returns exactly that string. */
  lemma TrimOfPadded(p: string, m: string, q: string)
    requires AllWhitespace(p) && AllWhitespace(q) && Tight(m)
    ensures Trim(p + m + q) == m
  {
    assert p + m + q == p + (m + q);
    TrimStartSkipsWhitespace(p, m + q);
    if m == [] {
      assert m + q == q + [];
      TrimStartSkipsWhitespace(q, []);
    } else {
      TrimEndSkipsWhitespace(m, q);
    }
  }

  /** Splits `s` around its trimmed core. */
  lemma TrimSplit(s: string) returns (pre: string, post: string)
    ensures s == pre + Trim(s) + post
    ensures AllWhitespace(pre) && AllWhitespace(post)
  {
    var t := TrimStart(s);
    var m := TrimEnd(t);
    pre, post := s[..|s| - |t|], t[|m|..];
    assert Trim(s) == m;
    SplitTwice(s, |s| - |t|, |m|);
  }

  lemma SplitTwice(s: string, k: nat, j: nat)
    requires k + j <= |s|
    ensures s == s[..k] + s[k..][..j] + s[k..][j..]
  {
    assert s == s[..k] + s[k..];
    assert s[k..] == s[k..][..j] + s[k..][j..];
  }

  lemma SeqAssoc(a: string, b: string, c: string, d: string, e: string)
    ensures a + (b + c + d) + e == (a + b) + c + (d + e)
  {
  }

  /** Trimming again changes nothing. */
  lemma TrimIdempotent(s: string)
    ensures Trim(Trim(s)) == Trim(s)
  {
    var m := Trim(s);
    assert [] + m + [] == m;
    TrimOfPadded([], m, []);
  }

  /** Extra whitespace on either side of the input does not change `trim`. */
  lemma TrimIgnoresPadding(p: string, s: string, q: string)
    requires AllWhitespace(p) && AllWhitespace(q)
    ensures Trim(p + s + q) == Trim(s)
  {
    var m := Trim(s);
    var pre, post := TrimSplit(s);
    var p', q' := p + pre, post + q;
    AppendWhitespace(p, pre);
    AppendWhitespace(post, q);
    calc {
      p + s + q;
      p + (pre + m + post) + q;
      { SeqAssoc(p, pre, m, post, q); }
      p' + m + q';
    }
    TrimOfPadded(p', m, q');
  }

  /** `trim` yields the empty string exactly for all-whitespace input. */
  lemma TrimEmptyIffBlank(s: string)
    ensures Trim(s) == [] <==> AllWhitespace(s)
  {
    var pre, post := TrimSplit(s);
    if Trim(s) == [] {
      AppendWhitespace(pre, post);
      assert s == pre + post;
    } else if AllWhitespace(s) {
      assert false;
    }
  }

  /** `s.startsWith(prefix)`. */
  predicate StartsWith(s: string, prefix: string): (b: bool)
    ensures b <==> |prefix| <= |s| && forall i :: 0 <= i < |prefix| ==> s[i] == prefix[i]
  {
    |prefix| <= |s| && s[..|prefix|] == prefix
  }

  /** `toLowerCase` on the ASCII letters; other characters are kept. */
  function LowerChar(c: char): char {
    if 'A' <= c <= 'Z' then (c as int - 'A' as int + 'a' as int) as char else c
  }

  function Lower(s: string): (r: string)
    ensures |r| == |s|
    ensures forall i :: 0 <= i < |s| ==> r[i] == LowerChar(s[i])
  {
    seq(|s|, i requires 0 <= i < |s| => LowerChar(s[i]))
  }

  /** `sub` occurs in `s` starting at position `i`. */
  predicate OccursAt(s: string, sub: string, i: nat) {
    i + |sub| <= |s| && s[i..i + |sub|] == sub
  }

  /** `s.includes(sub)`: a left-to-right scan for an occurrence. */
  function Includes(s: string, sub: string): (b: bool)
    ensures b <==> exists i: nat :: OccursAt(s, sub, i)
    decreases |s|
  {
    if |sub| > |s| then
      assert forall i: nat :: !OccursAt(s, sub, i);
      false
    else if s[..|sub|] == sub then
      assert OccursAt(s, sub, 0);
      true
    else
      var rest := Includes(s[1..], sub);
      assert forall i: nat :: OccursAt(s[1..], sub, i) <==> OccursAt(s, sub, i + 1) by {
        forall i: nat ensures OccursAt(s[1..], sub, i) <==> OccursAt(s, sub, i + 1) {
          if i + 1 + |sub| <= |s| {
            assert s[1..][i..i + |sub|] == s[i + 1..i + 1 + |sub|];
          }
        }
      }
      assert rest ==> exists i: nat :: OccursAt(s, sub, i) by {
        if rest {
          var i: nat :| OccursAt(s[1..], sub, i);
          assert OccursAt(s, sub, i + 1);
        }
      }
      assert (exists i: nat :: OccursAt(s, sub, i)) ==> rest by {
        if exists i: nat :: OccursAt(s, sub, i) {
          var i: nat :| OccursAt(s, sub, i);
          assert i != 0;
          assert OccursAt(s[1..], sub, i - 1);
        }
      }
      rest
  }
}
